=== FILE: README.md ===
# Flappy-bird genetic algorithm: a Dafny model of the simulation and evolution engine

This project models the core of `flappy_bird_ga`: a population of birds flies
through a track of scrolling barriers, each bird deciding every tick whether
to flap, and the survivors' tick counts drive the evolution of the next
generation. The model covers:

- **State** (`state.dfy`, from `state.py`): barriers that scroll two units per
  tick; the base bird with its survival counter; the base collision test (a
  boundary test, then the later of `barriers[0..1]` in the strict horizontal
  window, then a gap test); and the flap-and-fall physics step the
  controllable birds share.
- **Genetic** (`genetic.dfy`, from `genetic.py`): the genetic bird with its
  3→2→1 ReLU perceptron and observation cache; elementwise crossover and
  mutation under given masks; the fitness ratio; the selection probabilities;
  `spawn` (first generation or reproduction); and `learn` (a stable sort by
  non-increasing fitness).
- **Neat** (`neat.dfy`, from `neat.py`): the NEAT bird's nearest-barrier rule,
  its relative feature cache, its physics and its flap threshold. The
  network's prediction is an input.
- **Game** (`game.dfy`, from `game.py`): the human-controlled bird, with the up
  key as an input; the episode reset; the episode tick (collide every bird
  against the unscrolled track, learn and reset on extinction, otherwise move,
  scroll and recycle at most one barrier); and the score.

Every random draw is an explicit argument constrained to its support. These
are the normal draws, the Bernoulli masks, the parent indices of
`np.random.choice` and `random.randint(152, 320)`. Bird x positions and
barrier coordinates are `int`. Bird heights and velocities, network weights,
features and NEAT fitness are `real`, so the 0.5 gravity and the 1/288
fitness increment are exact.

Behaviour of the code worth noting:

- `learn` sorts the finished generation by survival count, largest first,
  before storing it.
- A previous generation with no fitness at all makes `spawn` fail: numpy's
  probabilities become NaN and `np.random.choice` raises. The failure is a
  `Failure` result. `Game.TickKeepsInvariant`
  proves that a running game never reaches it.
- The mutation masks are drawn with success probability 0.1. Where a mask bit
  is 1 the crossed-over value is kept; where it is 0 the fresh normal draw is
  used.
- A recycled barrier is always placed at x = 864, three track lengths from
  the left edge.
- The game's constructor only selects the playable or the NEAT strategy. The
  genetic strategy has the same `spawn`/`learn` interface, so the model lets
  the episode controller drive any of the three.
- `Game.tick` calls a bird's `tick` only when its `impulse` argument is set,
  and then calls `update`. On an impulse tick a living genetic or playable
  bird flaps or not, falls and counts two; without the impulse it does not
  move and counts one. A NEAT bird falls in `update` on every tick and counts
  one.

## Model

| member | source | states |
|---|---|---|
| State.NewBarrier | flappy_bird_ga/state.py:5-11 | a new barrier sits at the given x and gap top, with width 52 (twice the 26-pixel sprite) and gap 60 |
| State.BarrierTick | flappy_bird_ga/state.py:17-18 | a tick moves a barrier exactly 2 to the left and keeps its gap top, gap and width |
| State.BarrierTicksClosedForm | flappy_bird_ga/state.py:17-18 | after k ticks a barrier has moved exactly 2k left and nothing else changed |
| State.BarrierLeavesScreen | flappy_bird_ga/state.py:17-18 | a barrier's right edge is left of 0 after k ticks exactly when 2k > x + 52 |
| State.NewBird | flappy_bird_ga/state.py:22-29 | a new bird sits at the given point, alive, at rest and with survival count 0 |
| State.Update | flappy_bird_ga/state.py:34-36 | a living bird's survival count goes up by exactly 1; a dead bird is unchanged; no other field changes |
| State.Flight | flappy_bird_ga/genetic.py:26-32 | the flap-and-fall step: d + 1, v' = v + (flap ? 1 : 0) - 0.5, y' = y - v', position and liveness kept |
| State.FlapRaisesByOne | flappy_bird_ga/genetic.py:30-32 | flapping leaves the bird exactly one unit higher, and one unit faster upward, than not flapping |
| State.FallClosedForm | flappy_bird_ga/genetic.py:31-32 | k steps without flapping lower v by k/2, move y by -k*v + k(k+1)/4 and count k ticks |
| State.Features | flappy_bird_ga/genetic.py:27 | the observation is the velocity, the cached x divided by 288 and the cached y divided by 512 |
| State.WindowScan | flappy_bird_ga/state.py:44-47 | the scan over barrier indices returns the barrier at the last index inside the window, whatever earlier indices matched; it keeps the initial value when none matches, and returns nothing else |
| State.WindowBarrier | flappy_bird_ga/state.py:44-47 | barriers[1] when it is in the strict window x-52 < bx < x+34; else barriers[0] when that one is; else none |
| State.Collide | flappy_bird_ga/state.py:38-54 | a dead bird reports a hit and is unchanged. A living bird dies iff it is out of bounds, or the chosen window barrier exists and the bird is outside its gap. The flag equals "dead afterwards", and only `alive` changes |
| State.BoundaryEdges | flappy_bird_ga/state.py:40-42 | with floor 0 and ceiling 512 the boundary test passes exactly on 0 <= y <= 488 (488 survives, 489 and -1 die) |
| State.GapEdges | flappy_bird_ga/state.py:49-51 | in the window of a barrier with gap top 100, heights 100 and 136 survive, and 99 and 137 die |
| State.CollideOneWay | flappy_bird_ga/state.py:38-54 | `alive` only goes from true to false, and a dead bird always reports a hit |
| Genetic.Hidden | flappy_bird_ga/genetic.py:27-28 | the hidden layer has two activations, all non-negative |
| Genetic.NetworkExpanded | flappy_bird_ga/genetic.py:27-29 | hidden unit j is max(f0*m1[0][j] + f1*m1[1][j] + f2*m1[2][j] + b1[j], 0); the output is h0*m2[0][0] + h1*m2[1][0] + b2[0] |
| Genetic.Flaps | flappy_bird_ga/genetic.py:28-30 | the bird flaps exactly when Relu(features @ m1[:,0] + b1[0]) * m2[0][0] + Relu(features @ m1[:,1] + b1[1]) * m2[1][0] + b2[0] is strictly positive, written out in scalars |
| Genetic.NewGeneticBird | flappy_bird_ga/genetic.py:13-22 | a new genetic bird is a fresh base bird at the given point carrying exactly the given parameters and the zero cache |
| Genetic.Tick | flappy_bird_ga/genetic.py:24-32 | a dead bird is unchanged. A living bird counts a tick and flaps iff the network output is strictly positive; then v' = v + flap - 0.5 and y' = y - v'. Parameters and cache are kept |
| Genetic.FreshBirdDoesNotFlap | flappy_bird_ga/genetic.py:27-30 | a bird with zero biases, zero velocity and the initial cache computes output 0 and does not flap |
| Genetic.Collide | flappy_bird_ga/genetic.py:34-53 | same outcome and bird state as the base test. The cache takes the chosen barrier's raw x, y and gap only when a living in-bounds bird has a barrier in its window; otherwise it is unchanged |
| Genetic.BlendScalar | flappy_bird_ga/genetic.py:70 | numpy's mask*a + (1-mask)*b with a 0/1 mask picks a where the bit is 1 and b where it is 0 |
| Genetic.BlendVec | flappy_bird_ga/genetic.py:71 | elementwise blend of vectors: each element picked by its own mask bit, length kept |
| Genetic.BlendMat | flappy_bird_ga/genetic.py:70 | elementwise blend of matrices: each element picked by its own mask bit, shape kept |
| Genetic.Blend | flappy_bird_ga/genetic.py:70-73 | crossover (and mutation) of all four tensors keeps their shapes and picks every element independently by its own mask bit |
| Genetic.FitnessRatio | flappy_bird_ga/genetic.py:64 | d1/(d1+d2) lies in [0,1], is 0 iff d1 = 0 and 1 iff d2 = 0; a pair with d1 + d2 = 0 is excluded because the division raises |
| Genetic.Reproduce | flappy_bird_ga/genetic.py:62-86 | the child is a new bird at the spawn point. Each of its elements is the crossover pick (parent 1 where the crossover bit is 1, parent 2 where 0), kept where the mutation bit is 1 and replaced by the fresh draw where 0 |
| Genetic.DominantParent | flappy_bird_ga/genetic.py:64-73 | if the second parent has no fitness and no element mutates, the child has exactly the first parent's parameters |
| Genetic.TotalBounds | flappy_bird_ga/genetic.py:99-100 | no single fitness exceeds the sum of all fitnesses |
| Genetic.Scaled | flappy_bird_ga/genetic.py:100 | dividing by the sum keeps one entry per bird, each being that bird's fitness over the sum |
| Genetic.ScaledSum | flappy_bird_ga/genetic.py:100 | the entries divided by the sum add up to the sum divided by itself |
| Genetic.Probabilities | flappy_bird_ga/genetic.py:99-100 | the probabilities d_i / sum(d) lie in [0,1], are positive exactly for birds with positive fitness, and sum to 1; a positive sum is required because the division is unguarded |
| Genetic.Insert | flappy_bird_ga/genetic.py:109 | inserting into a list sorted by non-increasing d keeps it sorted and adds exactly one bird |
| Genetic.SortByFitness | flappy_bird_ga/genetic.py:109 | the result is sorted by non-increasing d and is a permutation of the input |
| Genetic.Child | flappy_bird_ga/genetic.py:90-104 | a new-generation bird is at the spawn point with the initial cache. Without a previous generation it has the drawn weights and zero biases. Otherwise it is reproduced from two parents with positive fitness |
| Genetic.Spawn | flappy_bird_ga/genetic.py:88-105 | fails iff a non-empty previous generation has zero total fitness and n > 0; otherwise returns exactly n birds at the spawn point, with all biases zero in the first generation |
| Genetic.FirstGeneration | flappy_bird_ga/genetic.py:88-96 | from the initial algorithm (generation 0, no previous generation) `spawn` always succeeds with n birds at the spawn point, each carrying its drawn weights and zero biases |
| Genetic.Learn | flappy_bird_ga/genetic.py:107-110 | the iteration count rises by exactly 1; the stored pool is a permutation of all the birds, sorted by non-increasing d, with no truncation |
| Genetic.LearnValid | flappy_bird_ga/genetic.py:107-110 | learning keeps every bird, so the pool has as many birds as the generation and all of them are well shaped |
| Genetic.LearnedFitnessPositive | flappy_bird_ga/genetic.py:99-110 | if every finished bird survived at least one tick, the learned pool has a positive total fitness |
| Neat.NewNeatBird | flappy_bird_ga/neat.py:14-19 | a new NEAT bird is a fresh base bird at the given point carrying its genome's fitness and the zero cache |
| Neat.Tick | flappy_bird_ga/neat.py:21-24 | adds 1 to v iff the prediction exceeds 0.5; nothing else changes, even for a dead bird |
| Neat.Update | flappy_bird_ga/neat.py:26-31 | a dead bird is unchanged. A living bird gets d + 1, fitness + 1/288, v - 0.5, and y - v' |
| Neat.Target | flappy_bird_ga/neat.py:39-41 | the barrier a NEAT bird observes is the second one exactly when the first one's right edge (x + 52) is left of the bird, and the first one otherwise |
| Neat.TickUpdateIsFlight | flappy_bird_ga/neat.py:21-31 | for a living bird, tick then update is the shared flap-and-fall step with flap = prediction > 0.5 |
| Neat.OverlapsIsWindow | flappy_bird_ga/neat.py:46 | the NEAT overlap test bx < x+34 and bx+52 > x is the base bird's strict window |
| Neat.Collide | flappy_bird_ga/neat.py:33-51 | a dead bird reports a hit and is unchanged, and the boundary rule is the base one. Otherwise the target is barriers[1] iff barriers[0].x + 52 < x. The cache is always set to (tx - x + 52, y - ty, gap). The bird dies iff the target overlaps it and it is outside the gap |
| Neat.SameOutcomeWhenSpaced | flappy_bird_ga/neat.py:39-49 | with barriers at least 86 apart, the NEAT and base rules give the same outcome |
| Neat.RulesSplitWhenBothInWindow | flappy_bird_ga/neat.py:39-41 | when both barriers are in the window, the NEAT bird watches barriers[0] and the base bird barriers[1] |
| Neat.Spawn | flappy_bird_ga/neat.py:59-63 | one fresh bird at the spawn point per genome of the pool, carrying that genome's fitness |
| Game.PlayableTick | flappy_bird_ga/game.py:46-53 | a dead bird is unchanged. A living bird gets d + 1, v + 1 if the key is pressed, then v - 0.5 and y - v |
| Game.AgentCollide | flappy_bird_ga/game.py:101-103 | a collision keeps a bird's kind and parameters and changes only `alive` in the bird's body, true to false at most; genetic and NEAT birds also refresh their cache |
| Game.Advance | flappy_bird_ga/game.py:122-125 | liveness and x are kept, and a dead bird keeps y and d. Without the impulse a playable or genetic bird keeps y and v and counts 1; with it a living one takes exactly one flap-and-fall step (flap = key pressed, or the network's decision on its cached features) and counts 2. A living NEAT bird takes one flight step on every tick, flapping only on impulse ticks with prediction > 0.5, and gains 1/288 fitness; a dead NEAT bird still gains that flap velocity and nothing else. A NEAT bird's cache is always kept, and a dead NEAT bird's fitness is kept |
| Game.Learn | flappy_bird_ga/game.py:117 | learning advances the genetic iteration or the NEAT epoch count by exactly one, the genetic pool being a permutation of the finished birds; the playable strategy is unchanged |
| Game.SpawnAgents | flappy_bird_ga/game.py:83 | fails only for a genetic pool with zero total fitness. Otherwise all birds are at (288, 239) and of the strategy's kind: 1 playable, 50 genetic, or one per NEAT genome. The genetic birds are exactly `spawn`'s children of the drawn parameters, and each NEAT bird carries its genome's fitness |
| Game.Reset | flappy_bird_ga/game.py:79-84 | score -1 and scroll 0. The population is exactly `spawn`'s result at the start point, so it fails only when `spawn` does. There are exactly 3 barriers, barrier k at x = 576 + 288k with the k-th drawn gap top (in [152, 320]), gap 60 and width 52 |
| Game.GetScore | flappy_bird_ga/game.py:138-139 | the reported score is the internal counter plus one |
| Game.ScoreAfterReset | flappy_bird_ga/game.py:138-139 | get_score() = score + 1 is 0 right after a reset |
| Game.Collided | flappy_bird_ga/game.py:101-103 | every bird is collided against the barriers as they stand at the start of the tick, and the population keeps its kind |
| Game.Scroll | flappy_bird_ga/game.py:129-130 | every barrier is ticked once: it moves exactly 2 left, in place, and the track keeps its length |
| Game.Tick | flappy_bird_ga/game.py:99-136 | a successful tick keeps three barriers and a population of the strategy's kind |
| Game.TickExtinction | flappy_bird_ga/game.py:105-119 | if the collision pass leaves no bird alive, learning happens exactly once, on the collided generation (the genetic pool is a permutation of it), and the episode restarts. The result has score -1, scroll 0, fresh birds at the start point and barriers at 576, 864, 1152, so nothing moved or scrolled. The new population is exactly the learned strategy's `spawn` with the reset draws |
| Game.TickWithSurvivors | flappy_bird_ga/game.py:121-136 | each bird is exactly `Advance` of its collided self: fates are decided against the pre-scroll barriers, then the bird takes its per-kind step, so living birds count the tick. Every barrier moves 2 left. If a barrier leaves the screen, the first is dropped, one at 864 is appended and the score rises by exactly 1. The track keeps 3 barriers and the scroll advances by 2 |
| Game.DeadBirdsStayPut | flappy_bird_ga/game.py:121-125 | within an episode a dead bird stays dead, at the same height and with the same count |
| Game.ResetIsFresh | flappy_bird_ga/game.py:79-84 | a successful reset satisfies the running-game invariant |
| Game.FreshBirdsSurvive | flappy_bird_ga/game.py:101-103 | right after a reset no bird of any kind dies in the first collision pass |
| Game.FreshNotExtinct | flappy_bird_ga/game.py:105-119 | a freshly reset population with birds never dies out on the first tick |
| Game.TickKeepsInvariant | flappy_bird_ga/game.py:99-136 | from any state satisfying the invariant, a tick never fails (in particular spawn never meets an all-zero-fitness pool) and keeps the invariant |

## Left out

- Rendering, sprite-sheet loading and the pygame window and event loop (`SpriteSheet`, every `render`, `run_game`): these are I/O. Sprite fields are dropped from the constructors.
- The `print` of the previous score in `reset`: this is output only.
- `pygame.key.get_pressed`: the state of the up key is the `pressed` input.
- The NEAT network, `nn.predict`, `Population` and `epoch`: these belong to a third-party library. The prediction is an input, the genome fitness of a new bird comes from the `pool` input, and `learn` only counts epochs.
- Random distributions: normal, Bernoulli, `np.random.choice` and `randint` draws are inputs constrained to their supports. No statement is made about frequencies.
- IEEE-754 rounding: all physics, weights and features are exact reals.
- The commented-out network drawing in `GeneticAlgorithm.render`.
- State.Collide, State.WindowBarrier, Genetic.Collide, Neat.Collide: require at least two barriers even on the dead and out-of-bounds paths, which never index the list. The game always holds three.
- Genetic.SortByFitness: stability (birds of equal fitness keep their order) is built into the definition but not stated as a separate property.

=== FILE: game.dfy ===
/**
  The episode controller (flappy_bird_ga/game.py): a population of birds of
  one kind driven tick by tick over a track of three barriers. Each tick first
  tests every bird against the unscrolled track; if that leaves no bird
  alive the strategy learns and the episode restarts, otherwise the birds
  move, the barriers scroll and at most one barrier is recycled.
 */
module Game {
  import opened Wrappers
  import opened State
  import Genetic
  import Neat

  /** The game's floor and ceiling for the boundary test. */
  const Floor: int := 0
  const Ceiling: int := 512
  /** Where every bird of a new episode starts (256 - 17). */
  const StartX: int := 288
  const StartY: real := 239.0
  /** Length of one screen of track; barriers start at 2, 3 and 4 track lengths. */
  const TrackLength: int := 288
  /** The inclusive range `random.randint(512 - 320 - 40, 320)` draws gap tops from. */
  const GapYLow: int := 152
  const GapYHigh: int := 320

  /** The human-controlled bird's step, with the state of the up key as an input. */
  function PlayableTick(b: Bird, pressed: bool): (r: Bird)
    ensures !b.alive ==> r == b
    ensures b.alive ==>
      && r.d == b.d + 1
      && r.v == b.v + (if pressed then 1.0 else 0.0) - 0.5
      && r.y == b.y - r.v
      && r.alive && r.x == b.x
  {
    if !b.alive then b else Flight(b, pressed)
  }

  /** A bird of any of the three kinds the strategies spawn. */
  datatype Agent =
    | PlayableAgent(bird: Bird)
    | GeneticAgent(gb: Genetic.GeneticBird)
    | NeatAgent(nb: Neat.NeatBird)

  function Body(a: Agent): Bird
  {
    match a
    case PlayableAgent(b) => b
    case GeneticAgent(g) => g.body
    case NeatAgent(n) => n.body
  }

  predicate SameKind(a: Agent, b: Agent)
  {
    (a.PlayableAgent? <==> b.PlayableAgent?) && (a.GeneticAgent? <==> b.GeneticAgent?) && (a.NeatAgent? <==> b.NeatAgent?)
  }

  /** `bird.collide(0, 512, barriers)` for each kind; the game ignores the returned flag. */
  function AgentCollide(a: Agent, barriers: seq<Barrier>): (r: Agent)
    requires |barriers| >= 2
    ensures SameKind(a, r)
    ensures Body(r) == Body(a).(alive := Body(r).alive)
    ensures Body(r).alive ==> Body(a).alive
    ensures a.GeneticAgent? ==> r.gb.params == a.gb.params
  {
    match a
    case PlayableAgent(b) => PlayableAgent(State.Collide(b, Floor, Ceiling, barriers).bird)
    case GeneticAgent(g) => GeneticAgent(Genetic.Collide(g, Floor, Ceiling, barriers).bird)
    case NeatAgent(n) => NeatAgent(Neat.Collide(n, Floor, Ceiling, barriers).bird)
  }

  /**
    The per-bird part of a live tick: `bird.tick()` when the impulse flag is
    set, then `bird.update()`. Only living birds count ticks. A playable or
    genetic bird moves only in `tick`: with the impulse it takes one
    flap-and-fall step and counts two, without it it hovers and counts one.
    A NEAT bird falls in `update` on every tick, flapping only on impulse
    ticks with a prediction above 0.5, and even a dead NEAT bird gains that
    velocity. A dead bird keeps its place and its count.
   */
  function Advance(a: Agent, impulse: bool, pressed: bool, prediction: real): (r: Agent)
    requires a.GeneticAgent? ==> Genetic.Shaped(a.gb.params)
    ensures SameKind(a, r)
    ensures a.GeneticAgent? ==> r.gb.params == a.gb.params && r.gb.cache == a.gb.cache
    ensures Body(r).alive == Body(a).alive && Body(r).x == Body(a).x
    ensures Body(r).d == Body(a).d + (if !Body(a).alive then 0 else if impulse && !a.NeatAgent? then 2 else 1)
    ensures !Body(a).alive ==> Body(r).y == Body(a).y
    ensures !a.NeatAgent? && (!impulse || !Body(a).alive) ==>
      Body(r).y == Body(a).y && Body(r).v == Body(a).v
    ensures a.PlayableAgent? && impulse && Body(a).alive ==>
      Body(r) == Flight(Body(a), pressed).(d := Body(a).d + 2)
    ensures a.GeneticAgent? && impulse && Body(a).alive ==>
      Body(r) == Flight(Body(a), Genetic.Flaps(Features(Body(a).v, a.gb.cache), a.gb.params)).(d := Body(a).d + 2)
    ensures a.NeatAgent? && Body(a).alive ==>
      Body(r) == Flight(Body(a), impulse && prediction > 0.5) && r.nb.fitness == a.nb.fitness + 1.0 / 288.0
    ensures a.NeatAgent? && !Body(a).alive ==>
      Body(r) == Body(a).(v := Body(a).v + (if impulse && prediction > 0.5 then 1.0 else 0.0))
    ensures a.NeatAgent? ==> r.nb.cache == a.nb.cache
    ensures a.NeatAgent? && !Body(a).alive ==> r.nb.fitness == a.nb.fitness
  {
    var t := if !impulse then a else match a
      case PlayableAgent(b) => PlayableAgent(PlayableTick(b, pressed))
      case GeneticAgent(g) => GeneticAgent(Genetic.Tick(g))
      case NeatAgent(n) => NeatAgent(Neat.Tick(n, prediction));
    match t
    case PlayableAgent(b) => PlayableAgent(State.Update(b))
    case GeneticAgent(g) => GeneticAgent(g.(body := State.Update(g.body)))
    case NeatAgent(n) => NeatAgent(Neat.Update(n))
  }

  /** The evolutionary strategy chosen when the game is built. */
  datatype Strategy =
    | PlayableStrategy
    | GeneticStrategy(ga: Genetic.Algorithm)
    | NeatStrategy(epochs: nat)   // the third-party population; only its epochs are counted

  /** Every bird is of the kind the strategy spawns, and genetic birds have well-shaped parameters. */
  predicate Matches(s: Strategy, birds: seq<Agent>)
  {
    forall k :: 0 <= k < |birds| ==>
      && (s.PlayableStrategy? ==> birds[k].PlayableAgent?)
      && (s.GeneticStrategy? ==> birds[k].GeneticAgent? && Genetic.Shaped(birds[k].gb.params))
      && (s.NeatStrategy? ==> birds[k].NeatAgent?)
  }

  function GeneticBirds(birds: seq<Agent>): (r: seq<Genetic.GeneticBird>)
    requires forall k :: 0 <= k < |birds| ==> birds[k].GeneticAgent?
    ensures |r| == |birds|
    ensures forall k :: 0 <= k < |birds| ==> r[k] == birds[k].gb
  {
    seq(|birds|, k requires 0 <= k < |birds| => birds[k].gb)
  }

  /**
    `algo.learn(birds)`: the playable strategy ignores the birds, the genetic
    strategy runs its learning step on them, and the NEAT strategy runs one
    epoch of the external population.
   */
  function Learn(s: Strategy, birds: seq<Agent>): (r: Strategy)
    requires Matches(s, birds)
    ensures s.PlayableStrategy? ==> r.PlayableStrategy?
    ensures s.GeneticStrategy? ==> r.GeneticStrategy? && r.ga.iteration == s.ga.iteration + 1
    ensures s.GeneticStrategy? ==> multiset(r.ga.prev) == multiset(GeneticBirds(birds))
    ensures s.NeatStrategy? ==> r.NeatStrategy? && r.epochs == s.epochs + 1
  {
    match s
    case PlayableStrategy => PlayableStrategy
    case GeneticStrategy(ga) => GeneticStrategy(Genetic.Learn(ga, GeneticBirds(birds)))
    case NeatStrategy(e) => NeatStrategy(e + 1)
  }

  /** The random values and external inputs an episode reset consumes. */
  datatype ResetDraws = ResetDraws(
    gapYs: seq<int>,              // one `randint` per initial barrier
    spawn: seq<Genetic.Draw>,     // the genetic strategy's draws, one per bird
    pool: seq<real>)              // the NEAT pool: one genome fitness per bird

  predicate ValidStrategy(s: Strategy)
  {
    s.GeneticStrategy? ==> Genetic.ValidAlgorithm(s.ga)
  }

  /** The draws are ones a reset under strategy `s` could make. */
  predicate ResetFits(s: Strategy, rd: ResetDraws)
  {
    && |rd.gapYs| == 3
    && (forall k :: 0 <= k < 3 ==> GapYLow <= rd.gapYs[k] <= GapYHigh)
    && ValidStrategy(s)
    && (s.GeneticStrategy? ==>
         && |rd.spawn| == Genetic.DefaultPopulation
         && forall k :: 0 <= k < |rd.spawn| ==> Genetic.DrawFits(s.ga.prev, rd.spawn[k]))
  }

  /** `algo.spawn(288, 256 - 17, ...)` for each strategy. */
  function SpawnAgents(s: Strategy, rd: ResetDraws): (r: Result<seq<Agent>, Genetic.Error>)
    requires ResetFits(s, rd)
    ensures r.Failure? <==> s.GeneticStrategy? && |s.ga.prev| > 0 && Genetic.Total(Genetic.Fitnesses(s.ga.prev)) == 0
    ensures r.Success? ==> Matches(s, r.value)
    ensures r.Success? ==> forall k :: 0 <= k < |r.value| ==> Body(r.value[k]) == NewBird(StartX, StartY)
    ensures r.Success? ==> |r.value| == match s
      case PlayableStrategy => 1
      case GeneticStrategy(_) => Genetic.DefaultPopulation
      case NeatStrategy(_) => |rd.pool|
    ensures r.Success? && s.GeneticStrategy? ==> forall k :: 0 <= k < |r.value| ==>
      r.value[k].gb == Genetic.Spawn(s.ga, StartX, StartY, Genetic.DefaultPopulation, rd.spawn).value[k]
    ensures r.Success? && s.NeatStrategy? ==> forall k :: 0 <= k < |r.value| ==> r.value[k].nb.fitness == rd.pool[k]
  {
    match s
    case PlayableStrategy => Success([PlayableAgent(NewBird(StartX, StartY))])
    case GeneticStrategy(ga) =>
      (match Genetic.Spawn(ga, StartX, StartY, Genetic.DefaultPopulation, rd.spawn)
       case Failure(e) => Failure(e)
       case Success(gs) => Success(GeneticAgents(gs)))
    case NeatStrategy(_) => Success(NeatAgents(Neat.Spawn(StartX, StartY, rd.pool)))
  }

  /** Genetic birds as agents, in order. */
  function GeneticAgents(gs: seq<Genetic.GeneticBird>): (r: seq<Agent>)
    ensures |r| == |gs|
    ensures forall k :: 0 <= k < |gs| ==> r[k] == GeneticAgent(gs[k]) && Body(r[k]) == gs[k].body
  {
    seq(|gs|, k requires 0 <= k < |gs| => GeneticAgent(gs[k]))
  }

  /** NEAT birds as agents, in order. */
  function NeatAgents(ns: seq<Neat.NeatBird>): (r: seq<Agent>)
    ensures |r| == |ns|
    ensures forall k :: 0 <= k < |ns| ==> r[k] == NeatAgent(ns[k]) && Body(r[k]) == ns[k].body
  {
    seq(|ns|, k requires 0 <= k < |ns| => NeatAgent(ns[k]))
  }

  /** The whole game state. */
  datatype Game = Game(strategy: Strategy, birds: seq<Agent>, barriers: seq<Barrier>, score: int, scrollLoc: int)

  /**
    The start of an episode: score -1, scroll 0, a fresh population at the
    start point, and three barriers at 576, 864 and 1152 with their gap tops
    drawn from [152, 320]. It fails only when the genetic strategy's pool has
    no fitness at all.
   */
  function Reset(s: Strategy, rd: ResetDraws): (r: Result<Game, Genetic.Error>)
    requires ResetFits(s, rd)
    ensures r.Failure? <==> s.GeneticStrategy? && |s.ga.prev| > 0 && Genetic.Total(Genetic.Fitnesses(s.ga.prev)) == 0
    ensures r.Success? ==>
      var g := r.value;
      && g.strategy == s && g.score == -1 && g.scrollLoc == 0
      && Matches(s, g.birds)
      && (forall k :: 0 <= k < |g.birds| ==> Body(g.birds[k]) == NewBird(StartX, StartY))
      && g.birds == SpawnAgents(s, rd).value
      && |g.barriers| == 3
      && (forall k :: 0 <= k < 3 ==>
           && g.barriers[k] == NewBarrier(576 + 288 * k, rd.gapYs[k])
           && GapYLow <= g.barriers[k].y <= GapYHigh
           && g.barriers[k].gap == 60 && g.barriers[k].w == 52)
  {
    match SpawnAgents(s, rd)
    case Failure(e) => Failure(e)
    case Success(birds) =>
      var barriers := seq(3, k requires 0 <= k < 3 => NewBarrier(TrackLength * (k + 2), rd.gapYs[k]));
      Success(Game(s, birds, barriers, -1, 0))
  }

  /** The score shown to the player: the number of barriers recycled this episode. */
  function GetScore(g: Game): (r: int)
    ensures r == g.score + 1
  {
    g.score + 1
  }

  /** Right after a reset the score is 0. */
  lemma ScoreAfterReset(s: Strategy, rd: ResetDraws)
    requires ResetFits(s, rd)
    requires Reset(s, rd).Success?
    ensures GetScore(Reset(s, rd).value) == 0
  {
  }

  /** The inputs of one tick that come from outside the core. */
  datatype TickInputs = TickInputs(
    pressed: bool,             // the up key, for the playable bird
    predictions: seq<real>,    // the NEAT network's output for each bird
    newGapY: int,              // the `randint` of a recycled barrier
    reset: ResetDraws)         // the draws of a reset, if the population dies out

  predicate Valid(g: Game)
  {
    |g.barriers| == 3 && Matches(g.strategy, g.birds) && ValidStrategy(g.strategy)
  }

  /** Every bird after the collision pass of a tick, collided with the track as it stood before the tick. */
  function Collided(g: Game): (r: seq<Agent>)
    requires Valid(g)
    ensures |r| == |g.birds|
    ensures forall k :: 0 <= k < |r| ==> r[k] == AgentCollide(g.birds[k], g.barriers)
    ensures Matches(g.strategy, r)
  {
    seq(|g.birds|, k requires 0 <= k < |g.birds| => AgentCollide(g.birds[k], g.barriers))
  }

  predicate AllDead(birds: seq<Agent>)
  {
    forall k :: 0 <= k < |birds| ==> !Body(birds[k]).alive
  }

  /** The inputs fit the tick: one prediction per bird, a gap top in range, a reset draw for the learned strategy. */
  predicate TickFits(g: Game, inputs: TickInputs)
    requires Valid(g)
  {
    && |inputs.predictions| == |g.birds|
    && GapYLow <= inputs.newGapY <= GapYHigh
    && ResetFits(Learn(g.strategy, Collided(g)), inputs.reset)
  }

  /** One tick of every barrier. */
  function Scroll(bs: seq<Barrier>): (r: seq<Barrier>)
    ensures |r| == |bs|
    ensures forall k :: 0 <= k < |bs| ==> r[k] == BarrierTick(bs[k])
  {
    seq(|bs|, k requires 0 <= k < |bs| => BarrierTick(bs[k]))
  }

  /** Some barrier has left the screen. */
  predicate AnyOffScreen(bs: seq<Barrier>)
  {
    exists k :: 0 <= k < |bs| && OffScreen(bs[k])
  }

  /**
    One tick of `Game.tick(impulse)`. Collide every bird against the current
    barriers; if none is left alive, learn from the birds and reset.
    Otherwise advance every bird, scroll every barrier, and if any barrier has
    left the screen drop the first one, append one at 864 and score a point.
   */
  function Tick(g: Game, impulse: bool, inputs: TickInputs): (r: Result<Game, Genetic.Error>)
    requires Valid(g) && TickFits(g, inputs)
    ensures r.Success? ==> Valid(r.value)
  {
    var birds := Collided(g);
    if AllDead(birds) then Reset(Learn(g.strategy, birds), inputs.reset)
    else
      var moved := seq(|birds|, k requires 0 <= k < |birds| => Advance(birds[k], impulse, inputs.pressed, inputs.predictions[k]));
      assert Matches(g.strategy, moved) by {
        forall k | 0 <= k < |moved| ensures SameKind(birds[k], moved[k]) { }
      }
      var scrolled := Scroll(g.barriers);
      if AnyOffScreen(scrolled) then
        Success(Game(g.strategy, moved, scrolled[1..] + [NewBarrier(TrackLength * 3, inputs.newGapY)], g.score + 1, g.scrollLoc + 2))
      else
        Success(Game(g.strategy, moved, scrolled, g.score, g.scrollLoc + 2))
  }

  /**
    A tick in which the collision pass leaves no bird alive learns exactly
    once and restarts the episode: the strategy has advanced by one
    generation (or one epoch), and no bird moved and no barrier scrolled,
    since the whole population and track are the fresh ones of a reset.
   */
  lemma TickExtinction(g: Game, impulse: bool, inputs: TickInputs)
    requires Valid(g) && TickFits(g, inputs)
    requires AllDead(Collided(g))
    ensures var r := Tick(g, impulse, inputs);
      r.Success? ==>
        && (g.strategy.GeneticStrategy? ==>
             r.value.strategy.GeneticStrategy? && r.value.strategy.ga.iteration == g.strategy.ga.iteration + 1
             && multiset(r.value.strategy.ga.prev) == multiset(GeneticBirds(Collided(g)))
             && |r.value.birds| == Genetic.DefaultPopulation)
        && (g.strategy.NeatStrategy? ==> r.value.strategy.NeatStrategy? && r.value.strategy.epochs == g.strategy.epochs + 1)
        && (g.strategy.PlayableStrategy? ==> r.value.strategy.PlayableStrategy? && |r.value.birds| == 1)
        && r.value.score == -1 && r.value.scrollLoc == 0
        && (forall k :: 0 <= k < |r.value.birds| ==> Body(r.value.birds[k]) == NewBird(StartX, StartY))
        && (forall k :: 0 <= k < 3 ==> r.value.barriers[k].x == 576 + 288 * k)
        && r.value.birds == SpawnAgents(Learn(g.strategy, Collided(g)), inputs.reset).value
  {
  }

  /** Some barrier leaves the screen on this tick: its right edge, two further left, is left of 0. */
  predicate RecycleDue(bs: seq<Barrier>)
  {
    exists k :: 0 <= k < |bs| && bs[k].x - 2 + 52 < 0
  }

  /**
    A tick in which some bird survives the collision pass. Every bird's fate
    is the one decided against the barriers as they stood before the tick;
    living birds count the tick; every barrier moves left by 2; if a barrier
    leaves the screen the first one is dropped, one new barrier is appended
    at 864 and the score rises by exactly one; the track keeps three
    barriers and the scroll position advances by 2.
   */
  lemma TickWithSurvivors(g: Game, impulse: bool, inputs: TickInputs)
    requires Valid(g) && TickFits(g, inputs)
    requires !AllDead(Collided(g))
    ensures Tick(g, impulse, inputs).Success?
    ensures var r := Tick(g, impulse, inputs).value;
      && r.strategy == g.strategy && r.scrollLoc == g.scrollLoc + 2 && |r.birds| == |g.birds|
      && (forall k :: 0 <= k < |g.birds| ==>
           && r.birds[k] == Advance(AgentCollide(g.birds[k], g.barriers), impulse, inputs.pressed, inputs.predictions[k])
           && Body(r.birds[k]).alive == Body(AgentCollide(g.birds[k], g.barriers)).alive
           && (Body(r.birds[k]).alive ==> Body(r.birds[k]).d > Body(g.birds[k]).d))
      && |r.barriers| == 3
      && (!RecycleDue(g.barriers) ==>
           && r.score == g.score
           && forall k :: 0 <= k < 3 ==> r.barriers[k] == g.barriers[k].(x := g.barriers[k].x - 2))
      && (RecycleDue(g.barriers) ==>
           && r.score == g.score + 1
           && r.barriers[0] == g.barriers[1].(x := g.barriers[1].x - 2)
           && r.barriers[1] == g.barriers[2].(x := g.barriers[2].x - 2)
           && r.barriers[2] == NewBarrier(864, inputs.newGapY))
  {
    var scrolled := Scroll(g.barriers);
    assert RecycleDue(g.barriers) <==> AnyOffScreen(scrolled) by {
      if RecycleDue(g.barriers) {
        var k :| 0 <= k < |g.barriers| && g.barriers[k].x - 2 + 52 < 0;
        assert OffScreen(scrolled[k]);
      }
      if AnyOffScreen(scrolled) {
        var k :| 0 <= k < |scrolled| && OffScreen(scrolled[k]);
        assert g.barriers[k].x - 2 + 52 < 0;
      }
    }
  }

  /**
    Within an episode a dead bird stays dead and does not move or count:
    after a tick that does not end the episode, every bird that was dead is
    still dead at the same height with the same count.
   */
  lemma DeadBirdsStayPut(g: Game, impulse: bool, inputs: TickInputs, k: nat)
    requires Valid(g) && TickFits(g, inputs)
    requires !AllDead(Collided(g))
    requires k < |g.birds| && !Body(g.birds[k]).alive
    ensures var r := Tick(g, impulse, inputs).value;
      && !Body(r.birds[k]).alive
      && Body(r.birds[k]).y == Body(g.birds[k]).y
      && Body(r.birds[k]).d == Body(g.birds[k]).d
  {
    TickWithSurvivors(g, impulse, inputs);
  }

  /**
    The state right after a reset, as far as the next collision pass can
    tell: every bird alive, inside the boundaries, and short of the first two
    barriers.
   */
  predicate Fresh(g: Game)
    requires |g.barriers| >= 2
  {
    forall k :: 0 <= k < |g.birds| ==>
      && Body(g.birds[k]).alive
      && !OutOfBounds(Body(g.birds[k]).y, Floor, Ceiling)
      && g.barriers[0].x >= Body(g.birds[k]).x + 34
      && g.barriers[1].x >= Body(g.birds[k]).x + 34
  }

  /**
    The invariant of a running game: well formed, and either fresh from a
    reset or with every bird having survived at least one tick.
   */
  predicate Inv(g: Game)
  {
    && Valid(g)
    && (Fresh(g) || forall k :: 0 <= k < |g.birds| ==> Body(g.birds[k]).d >= 1)
  }

  /** A successful reset is fresh. */
  lemma ResetIsFresh(s: Strategy, rd: ResetDraws)
    requires ResetFits(s, rd) && Reset(s, rd).Success?
    ensures Inv(Reset(s, rd).value) && Fresh(Reset(s, rd).value)
  {
  }

  /** In a fresh game no bird of any kind dies in the collision pass. */
  lemma {:induction false} FreshBirdsSurvive(g: Game)
    requires Valid(g) && Fresh(g)
    ensures forall k :: 0 <= k < |g.birds| ==> Body(Collided(g)[k]).alive
  {
    forall k | 0 <= k < |g.birds| ensures Body(Collided(g)[k]).alive {
      var a := g.birds[k];
      match a
      case PlayableAgent(b) =>
        assert !State.Collide(b, Floor, Ceiling, g.barriers).hit;
      case GeneticAgent(gb) =>
        assert !State.Collide(gb.body, Floor, Ceiling, g.barriers).hit;
      case NeatAgent(nb) =>
        assert !Neat.Collide(nb, Floor, Ceiling, g.barriers).hit;
    }
  }

  /** A fresh game with birds cannot die out on its next collision pass. */
  lemma FreshNotExtinct(g: Game)
    requires Valid(g) && Fresh(g) && |g.birds| > 0
    ensures !AllDead(Collided(g))
  {
    FreshBirdsSurvive(g);
    assert Body(Collided(g)[0]).alive;
  }

  /**
    No tick of a game that keeps the invariant fails, and the invariant is
    kept. In particular the genetic strategy never meets a generation whose
    fitness is all zero: birds die at the earliest on the second tick of an
    episode, after every one of them has counted a tick.
   */
  lemma {:induction false} TickKeepsInvariant(g: Game, impulse: bool, inputs: TickInputs)
    requires Inv(g) && TickFits(g, inputs)
    ensures Tick(g, impulse, inputs).Success?
    ensures Inv(Tick(g, impulse, inputs).value)
  {
    var birds := Collided(g);
    if Fresh(g) && |g.birds| > 0 {
      FreshNotExtinct(g);
      FreshBirdsSurvive(g);
      TickWithSurvivors(g, impulse, inputs);
      var r := Tick(g, impulse, inputs).value;
      forall k | 0 <= k < |r.birds| ensures Body(r.birds[k]).d >= 1 {
        assert Body(birds[k]).alive;
      }
    } else if AllDead(birds) {
      var s := Learn(g.strategy, birds);
      if s.GeneticStrategy? && |birds| > 0 {
        Genetic.LearnedFitnessPositive(g.strategy.ga, GeneticBirds(birds));
      }
      ResetIsFresh(s, inputs.reset);
    } else {
      TickWithSurvivors(g, impulse, inputs);
    }
  }
}

=== FILE: genetic.dfy ===
/**
  The fixed-topology genetic algorithm (flappy_bird_ga/genetic.py): birds
  steered by a 3→2→1 perceptron with a rectified hidden layer, and a strategy
  that breeds each generation from the previous one by fitness-proportionate
  parent choice, elementwise crossover and elementwise mutation. Every random
  draw is an explicit argument.
 */
module Genetic {
  import opened Wrappers
  import opened State

  /** Layer widths of the perceptron. */
  const D0: nat := 3
  const D1: nat := 2
  const D2: nat := 1

  /** Success probability of the mutation masks. */
  const MutationRate: real := 0.1

  /** Generation size `spawn` uses by default. */
  const DefaultPopulation: nat := 50

  /** One draw of a Bernoulli(p) variable. */
  type Bit = b: int | 0 <= b <= 1

  /**
    The four tensors of the perceptron: weights `m1` (D0×D1) and `m2`
    (D1×D2), biases `b1` (D1) and `b2` (D2). With reals they are a bird's
    parameters; with bits they are one draw of elementwise masks.
   */
  datatype Tensors<T> = Tensors(m1: seq<seq<T>>, b1: seq<T>, m2: seq<seq<T>>, b2: seq<T>)

  type Params = Tensors<real>
  type Masks = Tensors<Bit>

  predicate IsMatrix<T>(m: seq<seq<T>>, rows: nat, cols: nat)
  {
    |m| == rows && forall i :: 0 <= i < rows ==> |m[i]| == cols
  }

  /** All four tensors have the perceptron's shapes. */
  predicate Shaped<T>(t: Tensors<T>)
  {
    IsMatrix(t.m1, D0, D1) && |t.b1| == D1 && IsMatrix(t.m2, D1, D2) && |t.b2| == D2
  }

  // ---------------------------------------------------------------------------
  // The controller

  function Dot(a: seq<real>, b: seq<real>): real
    requires |a| == |b|
  {
    if |a| == 0 then 0.0 else a[0] * b[0] + Dot(a[1..], b[1..])
  }

  function Column(m: seq<seq<real>>, j: nat): (c: seq<real>)
    requires forall i :: 0 <= i < |m| ==> j < |m[i]|
    ensures |c| == |m|
  {
    seq(|m|, i requires 0 <= i < |m| => m[i][j])
  }

  /** The row vector `v` times the matrix `m`, as numpy's `v @ m`. */
  function VecMat(v: seq<real>, m: seq<seq<real>>, cols: nat): (r: seq<real>)
    requires IsMatrix(m, |v|, cols)
    ensures |r| == cols
  {
    seq(cols, j requires 0 <= j < cols => Dot(v, Column(m, j)))
  }

  /** `np.maximum(x, 0)` on one element. */
  function Relu(x: real): real
  {
    if x >= 0.0 then x else 0.0
  }

  /** The hidden layer `max(features @ m1 + b1, 0)`. */
  function Hidden(f: seq<real>, p: Params): (h: seq<real>)
    requires |f| == D0 && Shaped(p)
    ensures |h| == D1
    ensures forall j :: 0 <= j < D1 ==> h[j] >= 0.0
  {
    var pre := VecMat(f, p.m1, D1);
    seq(D1, j requires 0 <= j < D1 => Relu(pre[j] + p.b1[j]))
  }

  /** The scalar output `hidden @ m2 + b2`. */
  function Output(h: seq<real>, p: Params): real
    requires |h| == D1 && Shaped(p)
  {
    VecMat(h, p.m2, D2)[0] + p.b2[0]
  }

  /**
    The flap decision: the network's output is strictly positive, that is the
    two rectified hidden units weighted by `m2` plus the output bias exceed 0.
   */
  function Flaps(f: seq<real>, p: Params): (r: bool)
    requires |f| == D0 && Shaped(p)
    ensures r <==>
      Relu(f[0] * p.m1[0][0] + f[1] * p.m1[1][0] + f[2] * p.m1[2][0] + p.b1[0]) * p.m2[0][0]
      + Relu(f[0] * p.m1[0][1] + f[1] * p.m1[1][1] + f[2] * p.m1[2][1] + p.b1[1]) * p.m2[1][0]
      + p.b2[0] > 0.0
  {
    NetworkExpanded(f, p);
    Output(Hidden(f, p), p) > 0.0
  }

  /**
    The network written out with its three inputs and two hidden units: each
    hidden unit is the rectified weighted sum of the inputs plus its bias, and
    the output is the weighted sum of the hidden units plus the output bias.
   */
  lemma {:induction false} NetworkExpanded(f: seq<real>, p: Params)
    requires |f| == D0 && Shaped(p)
    ensures forall j :: 0 <= j < D1 ==>
      Hidden(f, p)[j] == Relu(f[0] * p.m1[0][j] + f[1] * p.m1[1][j] + f[2] * p.m1[2][j] + p.b1[j])
    ensures var h := Hidden(f, p);
      Output(h, p) == h[0] * p.m2[0][0] + h[1] * p.m2[1][0] + p.b2[0]
  {
    forall j | 0 <= j < D1
      ensures Hidden(f, p)[j] == Relu(f[0] * p.m1[0][j] + f[1] * p.m1[1][j] + f[2] * p.m1[2][j] + p.b1[j])
    {
      var c := Column(p.m1, j);
      assert Dot(f, c) == f[0] * c[0] + Dot(f[1..], c[1..]);
      assert Dot(f[1..], c[1..]) == f[1] * c[1] + Dot(f[2..], c[2..]);
      assert Dot(f[2..], c[2..]) == f[2] * c[2] + Dot(f[3..], c[3..]);
    }
    var h := Hidden(f, p);
    var c := Column(p.m2, 0);
    assert Dot(h, c) == h[0] * c[0] + Dot(h[1..], c[1..]);
    assert Dot(h[1..], c[1..]) == h[1] * c[1] + Dot(h[2..], c[2..]);
  }

  /** A genetic bird: the base bird, its own parameters and its cached observation. */
  datatype GeneticBird = GeneticBird(body: Bird, params: Params, cache: Cache)

  /** A new genetic bird at the given point carrying parameters `p` and the zero cache. */
  function NewGeneticBird(x: int, y: real, p: Params): (r: GeneticBird)
    ensures r.body == NewBird(x, y) && r.params == p && r.cache == NoCache
  {
    GeneticBird(NewBird(x, y), p, NoCache)
  }

  /**
    One controlled step: a dead bird is untouched; a living bird counts the
    tick, decides from its velocity and cache whether to flap, and moves.
   */
  function Tick(g: GeneticBird): (r: GeneticBird)
    requires Shaped(g.params)
    ensures !g.body.alive ==> r == g
    ensures g.body.alive ==>
      && r.body.d == g.body.d + 1
      && r.body.v == g.body.v + (if Output(Hidden(Features(g.body.v, g.cache), g.params), g.params) > 0.0 then 1.0 else 0.0) - 0.5
      && r.body.y == g.body.y - r.body.v
      && r.body.alive && r.body.x == g.body.x
      && r.params == g.params && r.cache == g.cache
  {
    if !g.body.alive then g
    else g.(body := Flight(g.body, Flaps(Features(g.body.v, g.cache), g.params)))
  }

  /**
    A first-generation bird (zero biases) that has not yet seen a barrier and
    is at rest computes output 0 and therefore does not flap.
   */
  lemma FreshBirdDoesNotFlap(m1: seq<seq<real>>, m2: seq<seq<real>>)
    requires IsMatrix(m1, D0, D1) && IsMatrix(m2, D1, D2)
    ensures !Flaps(Features(0.0, NoCache), Tensors(m1, [0.0, 0.0], m2, [0.0]))
  {
    var p := Tensors(m1, [0.0, 0.0], m2, [0.0]);
    var f := Features(0.0, NoCache);
    NetworkExpanded(f, p);
  }

  /**
    The genetic collision test: the same outcome as the base test, and when a
    barrier is in the window of a living in-bounds bird, the cache takes that
    barrier's raw `x`, `y` and `gap`; otherwise the cache is untouched.
   */
  function Collide(g: GeneticBird, bot: int, top: int, barriers: seq<Barrier>): (r: Collision<GeneticBird>)
    requires |barriers| >= 2
    ensures r.hit == State.Collide(g.body, bot, top, barriers).hit
    ensures r.bird.body == State.Collide(g.body, bot, top, barriers).bird
    ensures r.bird.params == g.params
    ensures g.body.alive && !OutOfBounds(g.body.y, bot, top) && WindowBarrier(barriers, g.body.x).Some? ==>
      var c := WindowBarrier(barriers, g.body.x).value;
      r.bird.cache == Cache(c.x, c.y as real, c.gap)
    ensures !(g.body.alive && !OutOfBounds(g.body.y, bot, top) && WindowBarrier(barriers, g.body.x).Some?) ==>
      r.bird.cache == g.cache
  {
    var b := g.body;
    if !b.alive then Collision(true, g)
    else if OutOfBounds(b.y, bot, top) then Collision(true, g.(body := b.(alive := false)))
    else match WindowBarrier(barriers, b.x)
      case Some(c) =>
        var g' := g.(cache := Cache(c.x, c.y as real, c.gap));
        if OutsideGap(b.y, c) then Collision(true, g'.(body := b.(alive := false))) else Collision(false, g')
      case None => Collision(false, g)
  }

  // ---------------------------------------------------------------------------
  // Reproduction

  /** Selection by one mask bit: the first value where the bit is 1, the second where it is 0. */
  function Pick(m: Bit, a: real, b: real): real
  {
    if m == 1 then a else b
  }

  /** `m * a + (1 - m) * b` on one element, as numpy evaluates it. */
  function BlendScalar(m: Bit, a: real, b: real): (r: real)
    ensures r == Pick(m, a, b)
  {
    (m as real) * a + ((1 - m) as real) * b
  }

  function BlendVec(m: seq<Bit>, a: seq<real>, b: seq<real>): (r: seq<real>)
    requires |a| == |m| && |b| == |m|
    ensures |r| == |m|
    ensures forall i :: 0 <= i < |m| ==> r[i] == Pick(m[i], a[i], b[i])
  {
    seq(|m|, i requires 0 <= i < |m| => BlendScalar(m[i], a[i], b[i]))
  }

  function BlendMat(m: seq<seq<Bit>>, a: seq<seq<real>>, b: seq<seq<real>>, rows: nat, cols: nat): (r: seq<seq<real>>)
    requires IsMatrix(m, rows, cols) && IsMatrix(a, rows, cols) && IsMatrix(b, rows, cols)
    ensures IsMatrix(r, rows, cols)
    ensures forall i, j :: 0 <= i < rows && 0 <= j < cols ==> r[i][j] == Pick(m[i][j], a[i][j], b[i][j])
  {
    seq(rows, i requires 0 <= i < rows => BlendVec(m[i], a[i], b[i]))
  }

  /** Every element of `r` is picked from `a` or `b` by the bit at the same position of `m`. */
  predicate Selects(r: Params, m: Masks, a: Params, b: Params)
    requires Shaped(r) && Shaped(m) && Shaped(a) && Shaped(b)
  {
    && (forall i, j :: 0 <= i < D0 && 0 <= j < D1 ==> r.m1[i][j] == Pick(m.m1[i][j], a.m1[i][j], b.m1[i][j]))
    && (forall j :: 0 <= j < D1 ==> r.b1[j] == Pick(m.b1[j], a.b1[j], b.b1[j]))
    && (forall i, j :: 0 <= i < D1 && 0 <= j < D2 ==> r.m2[i][j] == Pick(m.m2[i][j], a.m2[i][j], b.m2[i][j]))
    && (forall j :: 0 <= j < D2 ==> r.b2[j] == Pick(m.b2[j], a.b2[j], b.b2[j]))
  }

  /**
    The masked blend of two parameter sets used for both crossover and
    mutation: the result has the perceptron's shapes and selects every
    element independently by its own mask bit.
   */
  function Blend(m: Masks, a: Params, b: Params): (r: Params)
    requires Shaped(m) && Shaped(a) && Shaped(b)
    ensures Shaped(r)
    ensures Selects(r, m, a, b)
  {
    Tensors(BlendMat(m.m1, a.m1, b.m1, D0, D1), BlendVec(m.b1, a.b1, b.b1),
            BlendMat(m.m2, a.m2, b.m2, D1, D2), BlendVec(m.b2, a.b2, b.b2))
  }

  /** Every bit of `m` equals `bit`. */
  predicate AllBits(m: Masks, bit: Bit)
    requires Shaped(m)
  {
    && (forall i, j :: 0 <= i < D0 && 0 <= j < D1 ==> m.m1[i][j] == bit)
    && (forall j :: 0 <= j < D1 ==> m.b1[j] == bit)
    && (forall i, j :: 0 <= i < D1 && 0 <= j < D2 ==> m.m2[i][j] == bit)
    && (forall j :: 0 <= j < D2 ==> m.b2[j] == bit)
  }

  /** `m` can be drawn elementwise from Bernoulli(p): no 1 when p = 0, no 0 when p = 1. */
  predicate InSupport(m: Masks, p: real)
    requires Shaped(m)
  {
    (p == 0.0 ==> AllBits(m, 0)) && (p == 1.0 ==> AllBits(m, 1))
  }

  /**
    The share of the first parent in the pair's fitness, the success
    probability of the crossover masks. Python divides without a guard, so a
    pair with no fitness at all raises; here that is the precondition.
   */
  function FitnessRatio(d1: nat, d2: nat): (r: real)
    requires d1 + d2 > 0
    ensures 0.0 <= r <= 1.0
    ensures r * ((d1 + d2) as real) == d1 as real
    ensures r == 0.0 <==> d1 == 0
    ensures r == 1.0 <==> d2 == 0
  {
    (d1 as real) / ((d1 + d2) as real)
  }

  /** The random values one child of `spawn` consumes. */
  datatype Draw = Draw(
    initM1: seq<seq<real>>,   // first generation: normal draws for m1
    initM2: seq<seq<real>>,   // first generation: normal draws for m2
    parent1: nat,             // later generations: the two chosen parents
    parent2: nat,
    cross: Masks,             // crossover masks, Bernoulli(fitness ratio)
    mutate: Masks,            // mutation masks, Bernoulli(MutationRate)
    noise: Params)            // normal draws that replace mutated elements

  /**
    The child is the crossover of the parents under `cross` followed by
    mutation under `mutate`: each element is kept from the crossover where its
    mutation bit is 1 and replaced by the noise draw where it is 0.
   */
  predicate Reproduced(child: Params, p1: Params, p2: Params, cross: Masks, mutate: Masks, noise: Params)
    requires Shaped(child) && Shaped(p1) && Shaped(p2) && Shaped(cross) && Shaped(mutate) && Shaped(noise)
  {
    && (forall i, j :: 0 <= i < D0 && 0 <= j < D1 ==>
         child.m1[i][j] == Pick(mutate.m1[i][j], Pick(cross.m1[i][j], p1.m1[i][j], p2.m1[i][j]), noise.m1[i][j]))
    && (forall j :: 0 <= j < D1 ==>
         child.b1[j] == Pick(mutate.b1[j], Pick(cross.b1[j], p1.b1[j], p2.b1[j]), noise.b1[j]))
    && (forall i, j :: 0 <= i < D1 && 0 <= j < D2 ==>
         child.m2[i][j] == Pick(mutate.m2[i][j], Pick(cross.m2[i][j], p1.m2[i][j], p2.m2[i][j]), noise.m2[i][j]))
    && (forall j :: 0 <= j < D2 ==>
         child.b2[j] == Pick(mutate.b2[j], Pick(cross.b2[j], p1.b2[j], p2.b2[j]), noise.b2[j]))
  }

  /**
    One child of two parents, placed at the spawn point: a new bird whose
    parameters are the masked crossover of the parents' followed by masked
    mutation. Requires what the division and the draws of `reproduce` require.
   */
  function Reproduce(x: int, y: real, p1: GeneticBird, p2: GeneticBird, dr: Draw): (r: GeneticBird)
    requires Shaped(p1.params) && Shaped(p2.params)
    requires Shaped(dr.cross) && Shaped(dr.mutate) && Shaped(dr.noise)
    requires p1.body.d + p2.body.d > 0
    requires InSupport(dr.cross, FitnessRatio(p1.body.d, p2.body.d))
    ensures r.body == NewBird(x, y) && r.cache == NoCache
    ensures Shaped(r.params)
    ensures Reproduced(r.params, p1.params, p2.params, dr.cross, dr.mutate, dr.noise)
  {
    var crossed := Blend(dr.cross, p1.params, p2.params);
    NewGeneticBird(x, y, Blend(dr.mutate, crossed, dr.noise))
  }

  /** A parent whose fitness dominates (the other has none) passes on every element not mutated. */
  lemma DominantParent(x: int, y: real, p1: GeneticBird, p2: GeneticBird, dr: Draw)
    requires Shaped(p1.params) && Shaped(p2.params)
    requires Shaped(dr.cross) && Shaped(dr.mutate) && Shaped(dr.noise)
    requires p1.body.d > 0 && p2.body.d == 0
    requires InSupport(dr.cross, FitnessRatio(p1.body.d, p2.body.d))
    requires AllBits(dr.mutate, 1)
    ensures Reproduce(x, y, p1, p2, dr).params == p1.params
  {
    var r := Reproduce(x, y, p1, p2, dr).params;
    assert r.m1 == p1.params.m1 by {
      forall i | 0 <= i < D0 ensures r.m1[i] == p1.params.m1[i] {
        assert forall j :: 0 <= j < D1 ==> r.m1[i][j] == p1.params.m1[i][j];
      }
    }
    assert r.m2 == p1.params.m2 by {
      forall i | 0 <= i < D1 ensures r.m2[i] == p1.params.m2[i] {
        assert forall j :: 0 <= j < D2 ==> r.m2[i][j] == p1.params.m2[i][j];
      }
    }
  }

  // ---------------------------------------------------------------------------
  // Selection probabilities

  function Fitnesses(birds: seq<GeneticBird>): (ds: seq<nat>)
    ensures |ds| == |birds|
    ensures forall i :: 0 <= i < |birds| ==> ds[i] == birds[i].body.d
  {
    seq(|birds|, i requires 0 <= i < |birds| => birds[i].body.d)
  }

  function Total(ds: seq<nat>): nat
  {
    if |ds| == 0 then 0 else ds[0] + Total(ds[1..])
  }

  function RealSum(xs: seq<real>): real
  {
    if |xs| == 0 then 0.0 else xs[0] + RealSum(xs[1..])
  }

  /** No single fitness exceeds the total. */
  lemma {:induction false} TotalBounds(ds: seq<nat>, i: nat)
    requires i < |ds|
    ensures ds[i] <= Total(ds)
  {
    if i > 0 {
      TotalBounds(ds[1..], i - 1);
    }
  }

  /** A share of a positive total lies in [0, 1] and is positive exactly when the part is. */
  lemma Share(a: real, s: real)
    requires 0.0 <= a <= s && s > 0.0
    ensures 0.0 <= a / s <= 1.0
    ensures a / s > 0.0 <==> a > 0.0
  {
    var q := a / s;
    assert q * s == a;
    assert (q - 1.0) * s == a - s;
  }

  /** Every fitness divided by `s`. */
  function Scaled(ds: seq<nat>, s: real): (xs: seq<real>)
    requires s > 0.0
    ensures |xs| == |ds|
    ensures forall i :: 0 <= i < |ds| ==> xs[i] == (ds[i] as real) / s
  {
    if |ds| == 0 then [] else [(ds[0] as real) / s] + Scaled(ds[1..], s)
  }

  /** Division by a positive real distributes over addition. */
  lemma DivAdd(a: real, b: real, s: real)
    requires s > 0.0
    ensures a / s + b / s == (a + b) / s
  {
    assert (a / s) * s == a && (b / s) * s == b;
  }

  /** A positive real divided by itself is one. */
  lemma DivSelf(s: real)
    requires s > 0.0
    ensures s / s == 1.0
  {
    var q := s / s;
    assert q * s == s;
    assert (q - 1.0) * s == 0.0;
  }

  /** Dividing every element by `s` divides the sum by `s`. */
  lemma {:induction false} ScaledSum(ds: seq<nat>, s: real)
    requires s > 0.0
    ensures RealSum(Scaled(ds, s)) == (Total(ds) as real) / s
  {
    if |ds| > 0 {
      ScaledSum(ds[1..], s);
      DivAdd(ds[0] as real, Total(ds[1..]) as real, s);
    }
  }

  /**
    The selection probabilities `d / sum(d)`: one per bird, each in [0, 1],
    positive exactly for the birds with positive fitness, summing to 1. The
    division is unguarded, so a positive total is the precondition.
   */
  function Probabilities(ds: seq<nat>): (p: seq<real>)
    requires Total(ds) > 0
    ensures |p| == |ds|
    ensures forall i :: 0 <= i < |ds| ==> 0.0 <= p[i] <= 1.0
    ensures forall i :: 0 <= i < |ds| ==> (p[i] > 0.0 <==> ds[i] > 0)
    ensures RealSum(p) == 1.0
  {
    var s := Total(ds) as real;
    ScaledSum(ds, s);
    DivSelf(s);
    forall i | 0 <= i < |ds| ensures 0.0 <= Scaled(ds, s)[i] <= 1.0 && (Scaled(ds, s)[i] > 0.0 <==> ds[i] > 0) {
      TotalBounds(ds, i);
      Share(ds[i] as real, s);
    }
    Scaled(ds, s)
  }

  // ---------------------------------------------------------------------------
  // Learning: sort the finished generation by fitness

  /** Non-increasing survival time. */
  predicate SortedByFitness(s: seq<GeneticBird>)
  {
    forall i, j :: 0 <= i < j < |s| ==> s[i].body.d >= s[j].body.d
  }

  /** Putting a bird at least as fit as the head in front of a sorted list keeps it sorted. */
  lemma ConsSorted(h: GeneticBird, t: seq<GeneticBird>)
    requires SortedByFitness(t)
    requires |t| > 0 ==> t[0].body.d <= h.body.d
    ensures SortedByFitness([h] + t)
  {
    var r := [h] + t;
    forall i, j | 0 <= i < j < |r| ensures r[i].body.d >= r[j].body.d {
      if i == 0 && j > 1 {
        assert r[j] == t[j - 1];
      }
    }
  }

  /** Putting the same bird in front of two lists keeps the one's contents the other's plus `x`. */
  lemma ConsContents(h: GeneticBird, x: GeneticBird, rest: seq<GeneticBird>, t: seq<GeneticBird>)
    requires multiset(t) == multiset(rest) + multiset{x}
    requires forall k :: 0 <= k < |t| ==> t[k] == x || t[k] in rest
    ensures multiset([h] + t) == multiset([h] + rest) + multiset{x}
    ensures forall k :: 0 <= k < |t| + 1 ==> ([h] + t)[k] == x || ([h] + t)[k] in [h] + rest
  {
    forall k | 0 <= k < |t| + 1 ensures ([h] + t)[k] == x || ([h] + t)[k] in [h] + rest {
      if k > 0 {
        assert ([h] + t)[k] == t[k - 1];
      }
    }
  }

  /** Insert `x` before the first bird that is not fitter than it (keeps equal birds in order). */
  function Insert(x: GeneticBird, s: seq<GeneticBird>): (r: seq<GeneticBird>)
    requires SortedByFitness(s)
    ensures SortedByFitness(r)
    ensures multiset(r) == multiset(s) + multiset{x}
    ensures |r| == |s| + 1
    ensures forall k :: 0 <= k < |r| ==> r[k] == x || r[k] in s
    ensures r[0] == x || r[0] == s[0]
  {
    if |s| == 0 || x.body.d >= s[0].body.d then ConsSorted(x, s); [x] + s
    else
      var t := Insert(x, s[1..]);
      assert s == [s[0]] + s[1..];
      ConsSorted(s[0], t);
      ConsContents(s[0], x, s[1..], t);
      [s[0]] + t
  }

  /** The stable sort by key `-d` that `learn` applies. */
  function SortByFitness(s: seq<GeneticBird>): (r: seq<GeneticBird>)
    ensures SortedByFitness(r)
    ensures multiset(r) == multiset(s)
    ensures |r| == |s|
  {
    if |s| == 0 then []
    else
      assert s == [s[0]] + s[1..];
      Insert(s[0], SortByFitness(s[1..]))
  }

  // ---------------------------------------------------------------------------
  // The strategy

  datatype Error = NanProbabilities

  /** The strategy's state: the generation counter and the last finished generation. */
  datatype Algorithm = Algorithm(iteration: nat, prev: seq<GeneticBird>)

  /** The strategy as its constructor builds it: generation 0 and no previous generation. */
  const InitialAlgorithm: Algorithm := Algorithm(0, [])

  predicate ValidAlgorithm(a: Algorithm)
  {
    forall k :: 0 <= k < |a.prev| ==> Shaped(a.prev[k].params)
  }

  /**
    A draw is one `spawn` could make for previous generation `prev`: every
    tensor has its shape, the mutation masks are Bernoulli(0.1) draws, and
    when selection is possible the parents are birds with positive
    probability and the crossover masks Bernoulli(fitness ratio) draws.
   */
  predicate DrawFits(prev: seq<GeneticBird>, dr: Draw)
  {
    && IsMatrix(dr.initM1, D0, D1) && IsMatrix(dr.initM2, D1, D2)
    && Shaped(dr.cross) && Shaped(dr.mutate) && Shaped(dr.noise)
    && InSupport(dr.mutate, MutationRate)
    && (Total(Fitnesses(prev)) > 0 ==>
         && dr.parent1 < |prev| && dr.parent2 < |prev|
         && Probabilities(Fitnesses(prev))[dr.parent1] > 0.0
         && Probabilities(Fitnesses(prev))[dr.parent2] > 0.0
         && InSupport(dr.cross, FitnessRatio(prev[dr.parent1].body.d, prev[dr.parent2].body.d)))
  }

  /**
    The `k`-th bird of a new generation, from its draw: zero biases and the
    drawn weights without a previous generation, otherwise a child of the two
    drawn parents.
   */
  function Child(a: Algorithm, x: int, y: real, dr: Draw): (c: GeneticBird)
    requires ValidAlgorithm(a) && DrawFits(a.prev, dr)
    requires |a.prev| == 0 || Total(Fitnesses(a.prev)) > 0
    ensures c.body == NewBird(x, y) && c.cache == NoCache && Shaped(c.params)
    ensures |a.prev| == 0 ==> c.params == Tensors(dr.initM1, [0.0, 0.0], dr.initM2, [0.0])
    ensures |a.prev| > 0 ==>
      && dr.parent1 < |a.prev| && dr.parent2 < |a.prev|
      && a.prev[dr.parent1].body.d > 0 && a.prev[dr.parent2].body.d > 0
      && Reproduced(c.params, a.prev[dr.parent1].params, a.prev[dr.parent2].params, dr.cross, dr.mutate, dr.noise)
  {
    if |a.prev| == 0 then NewGeneticBird(x, y, Tensors(dr.initM1, [0.0, 0.0], dr.initM2, [0.0]))
    else Reproduce(x, y, a.prev[dr.parent1], a.prev[dr.parent2], dr)
  }

  /**
    A new generation of `n` birds at the spawn point, one per draw. When the
    previous generation has no fitness at all the probabilities are NaN and
    drawing any parent fails; with no previous generation, or a positive
    total, exactly `n` birds come back.
   */
  function Spawn(a: Algorithm, x: int, y: real, n: nat, draws: seq<Draw>): (r: Result<seq<GeneticBird>, Error>)
    requires ValidAlgorithm(a)
    requires |draws| == n && forall k :: 0 <= k < n ==> DrawFits(a.prev, draws[k])
    ensures r.Failure? <==> |a.prev| > 0 && n > 0 && Total(Fitnesses(a.prev)) == 0
    ensures r.Success? ==> |r.value| == n
    ensures r.Success? ==> forall k :: 0 <= k < n ==>
      r.value[k].body == NewBird(x, y) && r.value[k].cache == NoCache && Shaped(r.value[k].params)
    ensures r.Success? && |a.prev| == 0 ==> forall k :: 0 <= k < n ==>
      r.value[k].params.b1 == [0.0, 0.0] && r.value[k].params.b2 == [0.0]
    ensures r.Success? ==> forall k :: 0 <= k < n ==> r.value[k] == Child(a, x, y, draws[k])
  {
    if |a.prev| > 0 && Total(Fitnesses(a.prev)) == 0 then
      if n == 0 then Success([]) else Failure(NanProbabilities)
    else
      Success(seq(n, k requires 0 <= k < n => Child(a, x, y, draws[k])))
  }

  /**
    The first `spawn` of a new strategy never fails: it returns `n` birds at
    the spawn point with the drawn weights and all biases zero.
   */
  lemma FirstGeneration(x: int, y: real, n: nat, draws: seq<Draw>)
    requires |draws| == n && forall k :: 0 <= k < n ==> DrawFits(InitialAlgorithm.prev, draws[k])
    ensures Spawn(InitialAlgorithm, x, y, n, draws).Success?
    ensures var gs := Spawn(InitialAlgorithm, x, y, n, draws).value;
      && |gs| == n
      && forall k :: 0 <= k < n ==>
           && gs[k].body == NewBird(x, y)
           && gs[k].params == Tensors(draws[k].initM1, [0.0, 0.0], draws[k].initM2, [0.0])
  {
    var gs := Spawn(InitialAlgorithm, x, y, n, draws).value;
    forall k | 0 <= k < n
      ensures gs[k].params == Tensors(draws[k].initM1, [0.0, 0.0], draws[k].initM2, [0.0])
    {
      assert gs[k] == Child(InitialAlgorithm, x, y, draws[k]);
    }
  }

  /**
    The learning step: the generation counter goes up by one and the whole
    finished generation, sorted by non-increasing fitness, becomes the
    selection pool.
   */
  function Learn(a: Algorithm, birds: seq<GeneticBird>): (r: Algorithm)
    ensures r.iteration == a.iteration + 1
    ensures multiset(r.prev) == multiset(birds)
    ensures SortedByFitness(r.prev)
  {
    Algorithm(a.iteration + 1, SortByFitness(birds))
  }

  /** Learning keeps every bird, so well-shaped birds make a valid pool. */
  lemma LearnValid(a: Algorithm, birds: seq<GeneticBird>)
    requires forall k :: 0 <= k < |birds| ==> Shaped(birds[k].params)
    ensures ValidAlgorithm(Learn(a, birds))
    ensures |Learn(a, birds).prev| == |birds|
  {
    var s := Learn(a, birds).prev;
    forall k | 0 <= k < |s| ensures Shaped(s[k].params) {
      assert s[k] in multiset(birds);
    }
  }

  /** When every finished bird survived at least one tick, the pool has positive total fitness. */
  lemma {:induction false} LearnedFitnessPositive(a: Algorithm, birds: seq<GeneticBird>)
    requires |birds| > 0
    requires forall k :: 0 <= k < |birds| ==> birds[k].body.d >= 1
    ensures Total(Fitnesses(Learn(a, birds).prev)) > 0
  {
    var s := Learn(a, birds).prev;
    assert s[0] in multiset(birds);
    TotalBounds(Fitnesses(s), 0);
  }
}

=== FILE: neat.dfy ===
/**
  The NEAT bird (flappy_bird_ga/neat.py): its own nearest-barrier rule, the
  relative features it caches, and its physics. The network itself belongs to
  a third-party library; its prediction is an input.
 */
module Neat {
  import opened State

  /** Fitness the genome gains for every tick the bird survives. */
  const FitnessPerTick: real := 1.0 / 288.0

  /** A NEAT bird: the base bird, its cached observation and its genome's fitness. */
  datatype NeatBird = NeatBird(body: Bird, cache: Cache, fitness: real)

  /** A new NEAT bird at the given point carrying its genome's fitness and the zero cache. */
  function NewNeatBird(x: int, y: real, fitness: real): (r: NeatBird)
    ensures r.body == NewBird(x, y) && r.fitness == fitness && r.cache == NoCache
  {
    NeatBird(NewBird(x, y), NoCache, fitness)
  }

  /**
    The flap decision from the network's prediction: one unit of impulse
    exactly when the prediction exceeds 0.5. There is no check for death, so
    a dead bird's velocity changes too.
   */
  function Tick(nb: NeatBird, prediction: real): (r: NeatBird)
    ensures r.body.v == nb.body.v + (if prediction > 0.5 then 1.0 else 0.0)
    ensures r.body == nb.body.(v := r.body.v)
    ensures r.cache == nb.cache && r.fitness == nb.fitness
  {
    if prediction > 0.5 then nb.(body := nb.body.(v := nb.body.v + 1.0)) else nb
  }

  /**
    Survival counting and physics: a dead bird is untouched; a living bird
    counts the tick, earns 1/288 fitness, loses 0.5 velocity and moves by the
    new velocity.
   */
  function Update(nb: NeatBird): (r: NeatBird)
    ensures !nb.body.alive ==> r == nb
    ensures nb.body.alive ==>
      && r.body.d == nb.body.d + 1
      && r.fitness == nb.fitness + 1.0 / 288.0
      && r.body.v == nb.body.v - 0.5
      && r.body.y == nb.body.y - r.body.v
      && r.body.x == nb.body.x && r.body.alive && r.cache == nb.cache
  {
    if !nb.body.alive then nb
    else
      var v := nb.body.v - Gravity;
      NeatBird(nb.body.(d := nb.body.d + 1, v := v, y := nb.body.y - v), nb.cache, nb.fitness + FitnessPerTick)
  }

  /** A tick followed by an update moves a living bird exactly as the shared flap-and-fall step does. */
  lemma TickUpdateIsFlight(nb: NeatBird, prediction: real)
    requires nb.body.alive
    ensures Update(Tick(nb, prediction)).body == Flight(nb.body, prediction > 0.5)
  {
  }

  /** The barrier a NEAT bird watches: the first one, unless it has entirely passed the bird. */
  function Target(barriers: seq<Barrier>, x: int): (r: Barrier)
    requires |barriers| >= 2
    ensures barriers[0].x + 52 < x ==> r == barriers[1]
    ensures barriers[0].x + 52 >= x ==> r == barriers[0]
  {
    if barriers[0].x + 52 < x then barriers[1] else barriers[0]
  }

  /** The barrier's horizontal extent strictly overlaps the bird's. */
  predicate Overlaps(b: Barrier, x: int)
  {
    b.x < x + 34 && b.x + 52 > x
  }

  /** The NEAT overlap test is the base bird's horizontal window written the other way round. */
  lemma OverlapsIsWindow(b: Barrier, x: int)
    ensures Overlaps(b, x) <==> InWindow(b, x)
  {
  }

  /**
    The NEAT collision test. A dead bird reports a hit and is untouched, and
    the boundary rule is the base bird's. A living in-bounds bird always
    caches the target's offset `x - bird.x + 52`, the bird's height above
    the gap top and the gap, and dies exactly when the target overlaps it and
    it is not inside the gap.
   */
  function Collide(nb: NeatBird, bot: int, top: int, barriers: seq<Barrier>): (r: Collision<NeatBird>)
    requires |barriers| >= 2
    ensures r.hit == !r.bird.body.alive
    ensures r.bird.body == nb.body.(alive := r.bird.body.alive)
    ensures r.bird.fitness == nb.fitness
    ensures !nb.body.alive ==> r.bird == nb
    ensures nb.body.alive && OutOfBounds(nb.body.y, bot, top) ==> r.hit && r.bird.cache == nb.cache
    ensures nb.body.alive && !OutOfBounds(nb.body.y, bot, top) ==>
      var t := if barriers[0].x + 52 < nb.body.x then barriers[1] else barriers[0];
      && r.bird.cache == Cache(t.x - nb.body.x + 52, nb.body.y - t.y as real, t.gap)
      && (r.hit <==> t.x > nb.body.x - 52 && t.x < nb.body.x + 34 && OutsideGap(nb.body.y, t))
  {
    var b := nb.body;
    if !b.alive then Collision(true, nb)
    else if OutOfBounds(b.y, bot, top) then Collision(true, nb.(body := b.(alive := false)))
    else
      var t := Target(barriers, b.x);
      var nb' := nb.(cache := Cache(t.x - b.x + 52, b.y - t.y as real, t.gap));
      if Overlaps(t, b.x) && OutsideGap(b.y, t) then Collision(true, nb'.(body := b.(alive := false)))
      else Collision(false, nb')
  }

  /**
    When the second barrier is at least a window's width (52 + 34) behind the
    first, a NEAT bird lives or dies exactly as a base bird at the same place
    would. The game's barriers are 288 or 342 apart, well beyond that; this
    model does not carry the spacing in `Game.Inv`.
   */
  lemma SameOutcomeWhenSpaced(nb: NeatBird, bot: int, top: int, barriers: seq<Barrier>)
    requires |barriers| >= 2
    requires barriers[1].x - barriers[0].x >= 86
    ensures Collide(nb, bot, top, barriers).hit == State.Collide(nb.body, bot, top, barriers).hit
  {
  }

  /** When both barriers are in the window the NEAT bird watches the first one and the base bird the second. */
  lemma RulesSplitWhenBothInWindow(x: int, barriers: seq<Barrier>)
    requires |barriers| >= 2
    requires InWindow(barriers[0], x) && InWindow(barriers[1], x)
    ensures Target(barriers, x) == barriers[0]
    ensures WindowBarrier(barriers, x) == Wrappers.Some(barriers[1])
  {
  }

  /** One bird per genome of the external pool, at the spawn point, with the genome's fitness. */
  function Spawn(x: int, y: real, pool: seq<real>): (r: seq<NeatBird>)
    ensures |r| == |pool|
    ensures forall k :: 0 <= k < |pool| ==> r[k].body == NewBird(x, y) && r[k].cache == NoCache && r[k].fitness == pool[k]
  {
    seq(|pool|, k requires 0 <= k < |pool| => NewNeatBird(x, y, pool[k]))
  }
}

=== FILE: state.dfy ===
/**
  The primitives of the simulation (flappy_bird_ga/state.py): barriers that
  scroll left at a fixed speed, and the base bird with its survival counter and
  its boundary-then-barrier collision test.
 */
module State {
  import opened Wrappers

  /** Height of the passable gap of a new barrier. */
  const Gap: int := 60
  /** Width of a barrier: its 26-pixel sprite scaled by two. */
  const BarrierWidth: int := 52
  /** How far a barrier moves left on each tick. */
  const ScrollStep: int := 2
  /** The bird's hit box. */
  const BirdWidth: int := 34
  const BirdHeight: int := 24
  /** Velocity lost to gravity on every physics step. */
  const Gravity: real := 0.5

  /** A pair of pipes at horizontal position `x` whose gap spans `y .. y + gap`. */
  datatype Barrier = Barrier(x: int, y: int, w: int, gap: int)

  /** A barrier built with the constructor's defaults. */
  function NewBarrier(x: int, y: int): (r: Barrier)
    ensures r.x == x && r.y == y
    ensures r.w == 52 && r.gap == 60
  {
    Barrier(x, y, BarrierWidth, Gap)
  }

  /** One tick of scrolling: only the horizontal position changes. */
  function BarrierTick(b: Barrier): (r: Barrier)
    ensures r.x == b.x - 2
    ensures r.y == b.y && r.w == b.w && r.gap == b.gap
  {
    b.(x := b.x - ScrollStep)
  }

  /** `k` consecutive ticks of one barrier. */
  function BarrierTicks(b: Barrier, k: nat): Barrier
  {
    if k == 0 then b else BarrierTick(BarrierTicks(b, k - 1))
  }

  /** A barrier has fully left the screen once its right edge is left of 0. */
  predicate OffScreen(b: Barrier)
  {
    b.x + 52 < 0
  }

  /** After `k` ticks a barrier has moved exactly `2k` to the left and is otherwise unchanged. */
  lemma {:induction false} BarrierTicksClosedForm(b: Barrier, k: nat)
    ensures BarrierTicks(b, k) == b.(x := b.x - 2 * k)
  {
    if k > 0 {
      BarrierTicksClosedForm(b, k - 1);
    }
  }

  /** A barrier still (partly) on screen leaves it on exactly the ticks with `2k > x + 52`. */
  lemma BarrierLeavesScreen(b: Barrier, k: nat)
    ensures OffScreen(BarrierTicks(b, k)) <==> 2 * k > b.x + 52
  {
    BarrierTicksClosedForm(b, k);
  }

  /**
    The base bird: fixed horizontal position `x`, height `y` (grows downwards
    on screen, so positive velocity `v` moves the bird up), survival counter `d`.
   */
  datatype Bird = Bird(x: int, y: real, v: real, d: nat, alive: bool)

  /** A bird as the constructor creates it: at rest, alive, nothing survived yet. */
  function NewBird(x: int, y: real): (r: Bird)
    ensures r.x == x && r.y == y
    ensures r.v == 0.0 && r.d == 0 && r.alive
  {
    Bird(x, y, 0.0, 0, true)
  }

  /** Survival counting: a living bird's counter goes up by one; a dead bird is untouched. */
  function Update(b: Bird): (r: Bird)
    ensures b.alive ==> r.d == b.d + 1
    ensures !b.alive ==> r == b
    ensures r == b.(d := r.d)
  {
    if !b.alive then b else b.(d := b.d + 1)
  }

  /**
    The physics step shared by the birds that can flap: count the tick,
    add an impulse of 1 when flapping, subtract gravity, then move by the new
    velocity. The callers skip it for dead birds.
   */
  function Flight(b: Bird, flap: bool): (r: Bird)
    ensures r.d == b.d + 1
    ensures r.v == b.v + (if flap then 1.0 else 0.0) - 0.5
    ensures r.y == b.y - r.v
    ensures r.x == b.x && r.alive == b.alive
  {
    var v := (if flap then b.v + 1.0 else b.v) - Gravity;
    b.(d := b.d + 1, v := v, y := b.y - v)
  }

  /** Flapping on a step leaves the bird exactly one unit higher than not flapping. */
  lemma FlapRaisesByOne(b: Bird)
    ensures Flight(b, true).y == Flight(b, false).y - 1.0
    ensures Flight(b, true).v == Flight(b, false).v + 1.0
  {
  }

  /** `k` physics steps without flapping. */
  function Fall(b: Bird, k: nat): Bird
  {
    if k == 0 then b else Flight(Fall(b, k - 1), false)
  }

  /**
    Free fall in closed form: after `k` steps the velocity has dropped by
    `k/2` and `y`, which grows downward on screen, has grown by
    `k(k+1)/4 - k*v`.
   */
  lemma {:induction false} FallClosedForm(b: Bird, k: nat)
    ensures Fall(b, k).v == b.v - 0.5 * (k as real)
    ensures Fall(b, k).y == b.y - (k as real) * b.v + 0.25 * ((k * (k + 1)) as real)
    ensures Fall(b, k).d == b.d + k
  {
    if k > 0 {
      FallClosedForm(b, k - 1);
      var kr := k as real;
      assert ((k * (k + 1)) as real) == (((k - 1) * k) as real) + 2.0 * kr;
    }
  }

  /** The observation of the nearest barrier cached by the learning birds. */
  datatype Cache = Cache(x: int, y: real, gap: int)

  /** The cache as the learning birds' constructors set it. */
  const NoCache: Cache := Cache(0, 0.0, 0)

  /**
    The observation vector fed to a controller: velocity, then the cached
    horizontal and vertical quantities scaled by the track length (288) and
    the screen height (512).
   */
  function Features(v: real, c: Cache): (f: seq<real>)
    ensures |f| == 3
    ensures f[0] == v && f[1] * 288.0 == c.x as real && f[2] * 512.0 == c.y
  {
    [v, (c.x as real) / 288.0, c.y / 512.0]
  }

  /** The outcome of a collision test: the returned flag and the updated bird. */
  datatype Collision<B> = Collision(hit: bool, bird: B)

  /** The boundary test: above the floor `bot` and with the whole bird below `top`. */
  predicate OutOfBounds(y: real, bot: int, top: int)
  {
    y < bot as real || y > (top - BirdHeight) as real
  }

  /** The strict horizontal window in which a barrier can touch a bird at `x`. */
  predicate InWindow(b: Barrier, x: int)
  {
    b.x > x - 52 && b.x < x + BirdWidth
  }

  /** A bird at height `y` is not wholly inside the barrier's gap. */
  predicate OutsideGap(y: real, b: Barrier)
  {
    y < b.y as real || y + BirdHeight as real > (b.y + b.gap) as real
  }

  /** No barrier after position `k` of `order` is inside the window. */
  predicate LastInWindow(barriers: seq<Barrier>, x: int, order: seq<nat>, k: nat)
    requires forall i :: 0 <= i < |order| ==> order[i] < |barriers|
  {
    forall j :: k < j < |order| ==> !InWindow(barriers[order[j]], x)
  }

  /**
    The scan over barrier indices `order`: every barrier inside the window
    replaces the one found so far, so the last match wins.
   */
  function WindowScan(barriers: seq<Barrier>, x: int, order: seq<nat>, found: Option<Barrier>): (r: Option<Barrier>)
    requires forall k :: 0 <= k < |order| ==> order[k] < |barriers|
    ensures |order| > 0 && InWindow(barriers[order[|order| - 1]], x) ==> r == Some(barriers[order[|order| - 1]])
    ensures (forall k :: 0 <= k < |order| ==> !InWindow(barriers[order[k]], x)) ==> r == found
    ensures r == found || exists k :: 0 <= k < |order| && r == Some(barriers[order[k]]) && InWindow(barriers[order[k]], x)
    ensures forall k :: 0 <= k < |order| && InWindow(barriers[order[k]], x) && LastInWindow(barriers, x, order, k) ==>
      r == Some(barriers[order[k]])
    decreases |order|
  {
    if |order| == 0 then found
    else
      var b := barriers[order[0]];
      var r := WindowScan(barriers, x, order[1..], if InWindow(b, x) then Some(b) else found);
      assert forall k :: 0 <= k < |order| - 1 ==> order[1..][k] == order[k + 1];
      r
  }

  /** The barrier the base bird tests against: the later of the first two barriers in its window. */
  function WindowBarrier(barriers: seq<Barrier>, x: int): (r: Option<Barrier>)
    requires |barriers| >= 2
    ensures InWindow(barriers[1], x) ==> r == Some(barriers[1])
    ensures !InWindow(barriers[1], x) && InWindow(barriers[0], x) ==> r == Some(barriers[0])
    ensures !InWindow(barriers[1], x) && !InWindow(barriers[0], x) ==> r == None
  {
    var order: seq<nat> := [0, 1];
    assert order[1..] == [1];
    WindowScan(barriers, x, order, None)
  }

  /**
    The base collision test. A dead bird reports a hit and is untouched; a
    living bird dies if it is out of bounds, or if the barrier chosen by
    `WindowBarrier` exists and the bird is not inside its gap. The returned
    flag always equals "dead afterwards", and nothing but `alive` changes.
   */
  function Collide(b: Bird, bot: int, top: int, barriers: seq<Barrier>): (r: Collision<Bird>)
    requires |barriers| >= 2
    ensures r.hit == !r.bird.alive
    ensures !b.alive ==> r.bird == b
    ensures r.bird == b.(alive := r.bird.alive)
    ensures b.alive ==>
      (r.hit <==>
        || OutOfBounds(b.y, bot, top)
        || (InWindow(barriers[1], b.x) && OutsideGap(b.y, barriers[1]))
        || (!InWindow(barriers[1], b.x) && InWindow(barriers[0], b.x) && OutsideGap(b.y, barriers[0])))
  {
    if !b.alive then Collision(true, b)
    else if OutOfBounds(b.y, bot, top) then Collision(true, b.(alive := false))
    else match WindowBarrier(barriers, b.x)
      case Some(c) =>
        if OutsideGap(b.y, c) then Collision(true, b.(alive := false)) else Collision(false, b)
      case None => Collision(false, b)
  }

  /** With the game's floor 0 and ceiling 512, a bird survives the boundary test exactly on `0 <= y <= 488`. */
  lemma BoundaryEdges(y: real)
    ensures !OutOfBounds(y, 0, 512) <==> 0.0 <= y <= 488.0
    ensures !OutOfBounds(488.0, 0, 512) && OutOfBounds(489.0, 0, 512) && OutOfBounds(-1.0, 0, 512)
  {
  }

  /**
    Inside the window of a barrier whose gap starts at 100, heights 100 and
    136 (= 100 + 60 - 24) survive while 99 and 137 die.
   */
  lemma GapEdges(x: int)
    ensures var c := NewBarrier(x, 100);
      && !Collide(Bird(x, 100.0, 0.0, 0, true), 0, 512, [c, c]).hit
      && !Collide(Bird(x, 136.0, 0.0, 0, true), 0, 512, [c, c]).hit
      && Collide(Bird(x, 99.0, 0.0, 0, true), 0, 512, [c, c]).hit
      && Collide(Bird(x, 137.0, 0.0, 0, true), 0, 512, [c, c]).hit
  {
  }

  /** `alive` only ever moves from true to false, and a hit is reported for every dead bird. */
  lemma CollideOneWay(b: Bird, bot: int, top: int, barriers: seq<Barrier>)
    requires |barriers| >= 2
    ensures Collide(b, bot, top, barriers).bird.alive ==> b.alive
    ensures !b.alive ==> Collide(b, bot, top, barriers).hit
  {
  }
}

=== FILE: wrappers.dfy ===
/** Failure-compatible result types used across the model. */
module Wrappers {

  /** An optional value: Python's `None` or an object. */
  datatype Option<+T> = None | Some(value: T)

  /** The value of an operation, or the exception Python raises instead. */
  datatype Result<+R, +E> = Success(value: R) | Failure(error: E)
}
